=== FILE: README.md ===
# PPE attendance checker — a Dafny model

The site records construction-worker attendance. It gates each record on a
personal-protective-equipment (PPE) check done by a vision model. `/verify`
takes a webcam frame as a data URL and asks the model for one of
`PPE_OK`, `PPE_MISSING: [LIST]` or `NO_WORKER`. It then either asks the
client to retry or inserts one PRESENT/PASSED or ABSENT/FAILED row into the
`attendance` table. `/manual-upload` and `/api/manual-mark` insert
operator-confirmed rows and admin-override rows. `/api/stats` counts, for one
day, the workers whose latest row is PRESENT and those whose latest row is
ABSENT. `/api/workers` allocates numeric worker ids and deletes a worker
together with all of that worker's attendance rows.

The project models this deterministic logic. Each external service becomes a
value or a parameter.

| module | file | what it holds |
|---|---|---|
| `Wrappers` | wrappers.dfy | `Option`, used for absent JSON keys and null ids |
| `Text` | text.dfy | Python's `in`, `str.replace(p, "")`, `str.strip()` and `str.split(c)` on strings |
| `DataUrl` | dataurl.dfy | `image.split(",")[1]` |
| `Classifier` | classifier.dfy | the reply classification of `/verify` |
| `Records` | records.dfy | the rows the three write paths insert |
| `Aggregation` | aggregation.dfy | the latest-wins fold and the counts of `/api/stats` |
| `Registry` | registry.dfy | decimal ids and the allocation loop of `add_worker` |
| `Tables` | tables.dfy | selection and cascade deletion by key over a table |
| `Site` | site.dfy | class `Store`: the `workers` and `attendance` tables and the handlers that change or read them |

The two tables are sequences in insertion order. A row's position stands for
its `created_at`. `Store.Valid()` is the invariant every handler keeps:
- worker ids are unique;
- every attendance row has the shape the write paths give their rows
  (`Records.Consistent`): no image URL and one of the four PPE statuses. That
  status fixes the note: empty for PASSED, stripped for FAILED,
  `Manual Override Confirmed` for MANUAL_VERIFIED and `Marked <status> by Admin`
  for ADMIN_OVERRIDE. It also fixes the attendance status (PRESENT for PASSED
  and MANUAL_VERIFIED, ABSENT for FAILED), except for ADMIN_OVERRIDE, whose
  status is whatever the admin sent.

The handlers' inputs that come from outside are parameters:
- the model's reply, already upper-cased and trimmed (the sentinel
  `ERROR_GEMINI` stands in for a failed call);
- whether the base64 payload decodes;
- today's date.

Several Python-level facts are made explicit:
- A request field that may be missing is an `Option`. `None` is an absent key,
  which is where `dict.get` defaults apply.
- The worker id of a row is an `Option`, because the handlers never check it.
- `split(",")[1]` on a string without a comma raises. It is `None` in the model
  and the ERROR answer in `Store.Verify`.

The missing-items column is not reserved for ABSENT rows. Manual-upload rows
carry `"Manual Override Confirmed"` (app.py:129) and admin rows carry
`"Marked <status> by Admin"` (app.py:157), and both kinds of row may be PRESENT.
`Records.Consistent` states the note each kind of row carries.

## Model

| member | source | states |
|---|---|---|
| `DataUrl.Payload` | app.py:80 | there is a payload exactly when the image holds a comma (otherwise the handler fails), and the payload never holds a comma |
| `DataUrl.PayloadBetweenCommas` | app.py:80 | the payload is the piece between the first comma and the second comma or the end |
| `DataUrl.PayloadOfDataUrl` | app.py:80 | for `header,body` with no other comma the payload is the whole base64 body |
| `DataUrl.PayloadStopsAtSecondComma` | app.py:80 | `data:x,AB,CD` yields `AB`, not everything after the first comma |
| `Text.JoinSplit` | app.py:80 | joining the pieces of `split(c)` with `c` gives back the string, so no character is lost or moved |
| `Text.Strip` | app.py:92 | the result is a window of the input with only whitespace cut on both sides, and it neither starts nor ends with whitespace |
| `Text.StripIdempotent` | app.py:92 | stripping twice is stripping once |
| `Text.RemoveAll` | app.py:92 | removing every occurrence of a pattern leaves a string unchanged when it does not occur and shortens it by at least the pattern's length when it does |
| `Text.RemoveAllFirst` | app.py:92 | the text before the first occurrence is kept as it is, that occurrence is deleted and removal goes on in the rest; with `RemoveAllLeading` and the no-occurrence case this fixes `str.replace(pat, "")` on every input |
| `Text.RemoveAllLeading` | app.py:92 | an occurrence at the very start is deleted and removal goes on after it |
| `Text.Contains` | app.py:88-91 | Python's substring test `p in s`, a left-to-right scan, holds exactly when `p` occurs at some index of `s` |
| `Text.Split` | app.py:80 | `split(c)` yields at least one piece, no piece holds `c`, and there is a single piece exactly when `c` does not occur |
| `Classifier.Classify` | app.py:88-92 | RETRY exactly when the reply contains `NO_WORKER`; PRESENT exactly when it lacks `NO_WORKER` and contains `PPE_OK`; otherwise ABSENT with stripped missing items no longer than the reply, shorter by at least `PPE_MISSING:` when that marker occurs |
| `Classifier.OtherReplyIsAbsent` | app.py:91-92 | every other reply is ABSENT, with the reply minus each `PPE_MISSING:`, stripped, as missing items |
| `Classifier.UnmarkedReplyIsAbsent` | app.py:91-92 | a reply with none of the three markers is ABSENT with its whole stripped text as missing items |
| `Classifier.TrimmedUnmarkedReplyIsAbsent` | app.py:66 | such a reply, already trimmed as the model client returns it, is kept verbatim |
| `Classifier.MissingListIsAbsent` | app.py:91-92 | `PPE_MISSING:` followed by items that hold none of the three markers is ABSENT with the stripped items as missing items |
| `Classifier.ListedItemsUnmarked` | app.py:88-91 | neither `NO_WORKER` nor `PPE_OK` can start inside the `PPE_MISSING:` prefix, so a listing holds them only if its items do |
| `Classifier.NoWorkerWins` | app.py:88-89 | a reply with both `NO_WORKER` and `PPE_OK`, in either order, is RETRY |
| `Classifier.PpeOkExample` | app.py:91 | the reply `PPE_OK` is PRESENT |
| `Classifier.NoWorkerExample` | app.py:88-89 | the reply `NO_WORKER` is RETRY |
| `Classifier.MissingListAfterBlank` | app.py:91-92 | `PPE_MISSING: <list>`, with one blank after the colon and a trimmed list holding none of the three markers (`[WORK BOOTS]`, `[MASK]` included), is ABSENT with the list, as written, as missing items |
| `Classifier.StripLeadingBlank` | app.py:92 | stripping one leading blank before a trimmed text gives that text |
| `Classifier.ErrorSentinelExample` | app.py:67-68 | a failed model call, reported as `ERROR_GEMINI`, is recorded ABSENT with `ERROR_GEMINI` as missing items |
| `Records.AutoRow` | app.py:94-101 | the automatic row is PRESENT with PASSED exactly for a PRESENT outcome and ABSENT with FAILED exactly for an ABSENT one; it carries the outcome's missing items (stripped, as `Classify` leaves them), no image URL and today's date, and meets `Consistent` |
| `Records.ManualRow` | app.py:125-132 | the manual-upload row is PRESENT / MANUAL_VERIFIED with the override note, no image URL and today's date |
| `Records.AdminRow` | app.py:149-159 | the admin row is ADMIN_OVERRIDE with `Marked <status> by Admin`; status and date default to PRESENT and today only when the request leaves them out |
| `Aggregation.LastStatusDefined` | app.py:174-176 | a worker has a latest status exactly when it has a row that day |
| `Aggregation.LastRowWins` | app.py:174-176 | a worker's latest status is the status of its last row in creation order |
| `Aggregation.LatestStatusMap` | app.py:174-176 | after the loop the map holds exactly the workers with a row, each mapped to the status of its last row |
| `Aggregation.CountStatus` | app.py:179-180 | the count of one status in the map never exceeds the number of map entries |
| `Aggregation.CountOfLatestMap` | app.py:179-180 | counting a status in the loop's map counts the workers whose last row has that status |
| `Aggregation.CountsPartitionWorkers` | app.py:179-180 | PRESENT, ABSENT and every other last status split the day's workers with no overlap, so other statuses are counted in neither |
| `Aggregation.CountsBounded` | app.py:179-180 | present plus absent never exceeds the number of distinct workers of the day |
| `Aggregation.EmptyDayCountsNobody` | app.py:179-180 | a day without rows gives 0 present and 0 absent |
| `Aggregation.LaterAbsentWins` | app.py:174-180 | a PRESENT row followed by an ABSENT row for the same worker counts 0 present and 1 absent |
| `Registry.DecimalString` | app.py:236 | `str(n)` is a digit string whose decimal value is `n` and which starts with `0` only when it is `"0"` |
| `Registry.ParseId` | app.py:228-231 | an id parses exactly when it is a non-empty string of digits, and then to the number those digits denote |
| `Registry.ParsePrinted` | app.py:229-236 | `int(str(n)) == n`: every printed id parses back to its number |
| `Registry.Max` | app.py:233 | the maximum is an element of the list and no element exceeds it |
| `Registry.NextWorkerId` | app.py:224-233 | the loop skips ids that do not parse and returns one more than the largest parsed id, or 1001 when none parses |
| `Registry.NextIdIsFresh` | app.py:233-236 | the allocated id is never an id already present |
| `Registry.NextIdIsUnique` | app.py:224-233 | the allocation rule admits one id only |
| `Registry.SequentialNextId` | app.py:224-233 | registering into an empty registry hands out 1001, 1002, … in turn |
| `Registry.MixedIdsExample` | app.py:228-231 | `1001`, `abc`, `1005` give `1006`: the id that does not parse is skipped |
| `Registry.SmallIdExample` | app.py:232-233 | an existing `5` gives `6`: the id is not clamped to 1001 |
| `Tables.Matching` | app.py:171 | selecting by key keeps exactly the rows carrying that key, and never more rows than the table has |
| `Tables.MatchingAppend` | app.py:171 | selection keeps table order and repetitions: selecting from `s + t` is selecting from `s`, then from `t` |
| `Tables.Without` | app.py:248-249 | deleting by key keeps exactly the rows not carrying that key, and never more rows than the table has |
| `Tables.WithoutAppend` | app.py:248-249 | deletion keeps table order and repetitions: deleting from `s + t` is deleting from `s`, then from `t` |
| `Tables.DeletedKeyGone` | app.py:248-249 | after deleting by key no row carries that key |
| `Tables.OtherKeysUntouched` | app.py:248-249 | deleting by key leaves the rows of every other key exactly as they were |
| `Tables.WithoutAbsentKey` | app.py:248-249 | deleting a key that no row carries changes nothing |
| `Tables.WithoutKeepsDistinct` | app.py:249 | deleting rows keeps keys unique |
| `Tables.AppendKeepsDistinct` | app.py:235-238 | appending a row with a fresh key keeps keys unique |
| `Site.WorkerIds` | app.py:223 | `select("worker_id")` lists every worker's id, one per worker, in table order |
| `Site.NameOf` | app.py:103-106 | the reported name is "Worker" when no worker has the id |
| `Site.NameOfRegistered` | app.py:103-106 | with unique ids, the reported name for a registered id is that worker's name |
| `Site.Store.constructor` | app.py:26 | an empty store, standing for a freshly created database, has both tables empty and meets the invariant |
| `Site.Store.Verify` | app.py:76-111 | a missing image, one without a comma or one that does not decode gives ERROR and writes nothing; RETRY writes nothing; otherwise exactly the automatic row is appended and the answer carries its status, the worker's name and the missing items; a registered worker id is answered with that worker's own name; the invariant is kept |
| `Site.Store.ManualUpload` | app.py:116-138 | success exactly when the image is readable, and then exactly the manual row is appended; on failure nothing is written |
| `Site.Store.ManualMark` | app.py:148-161 | exactly the admin row is appended, whatever the fields hold |
| `Site.Store.Stats` | app.py:168-190 | present and absent are the numbers of workers whose last row of the requested day (today by default) is PRESENT and ABSENT, their sum is at most the day's distinct workers, and the total is the number of registered workers |
| `Site.Store.AddWorker` | app.py:218-240 | an absent or empty name is refused with nothing written; otherwise the allocated id is new and obeys the allocation rule, and exactly one worker with that id and name is appended |
| `Site.Store.DeleteWorker` | app.py:248-249 | the tables become the old ones without the id's attendance rows and worker rows, and the invariant is kept |
| `Site.DeletionCascades` | app.py:248-249 | after a deletion no attendance or worker row has the id, and every other worker's attendance rows are unchanged |

## Left out

- Flask routing, JSON shaping, HTTP status codes, CORS and the templates (app.py:22-35, 254-255) are framework glue.
- Supabase storage is not modelled: the image upload and removal (app.py:84, 86, 123, 134), the object names built with `uuid.uuid4()` (app.py:82, 121) and any failure of those calls. A storage or table call that fails gives ERROR in the source; the model's calls never fail.
- The vision-model call (app.py:54-68) is a foreign network client. Its upper-cased, trimmed reply is a parameter; `Classify` accepts any string.
- `base64.b64decode` (app.py:81, 120) is a boolean parameter saying whether the payload decodes.
- `datetime.now()` (app.py:100, 131, 150, 168) is a `today` parameter.
- Loading the environment and secrets (app.py:16-27) is not modelled.
- Registry.ParseId: "parses as an integer" is modelled as a non-empty string of ASCII digits. Python's `int()` also accepts surrounding whitespace, a sign, underscores between digits and non-ASCII digits, so negative and signed ids are not modelled.
- Aggregation.LatestStatusMap: rows whose `created_at` ties are taken in insertion order. The database's tie order is not modelled.
- `precheck`, `get_logs` and `get_workers` (app.py:40-52, 194-213) only read a table and shape JSON.
- JSON values of other types (a number or a list as `image`, `name` or `status`) are not modelled; request fields are strings or absent.
- Site.NameOf: a null worker id matches no worker. How the database client renders a null in its filter is not modelled.
- Site.Store.Stats: the total is the length of the `workers` table rather than the database's `count="exact"` answer (app.py:183).

=== FILE: aggregation.dfy ===
/**
 * The daily statistics of `/api/stats` (app.py, `get_stats`): the day's rows,
 * oldest first, are folded into a map from worker to status in which later
 * rows overwrite earlier ones; PRESENT and ABSENT values are then counted.
 */
module Aggregation {
  import opened Wrappers
  import opened Records

  /** The map the fold builds: worker id (possibly null) to attendance status. */
  type StatusMap = map<Option<string>, string>

  /** The status of the last row for worker `w`, reading the rows from the newest back. */
  function LastStatus(rows: seq<AttendanceRow>, w: Option<string>): Option<string>
  {
    if rows == [] then None
    else if rows[|rows| - 1].workerId == w then Some(rows[|rows| - 1].status)
    else LastStatus(rows[..|rows| - 1], w)
  }

  /** The workers that have at least one row. */
  function WorkersOf(rows: seq<AttendanceRow>): set<Option<string>>
  {
    set i | 0 <= i < |rows| :: rows[i].workerId
  }

  /** A worker has a last status exactly when it has a row. */
  lemma {:induction false} LastStatusDefined(rows: seq<AttendanceRow>, w: Option<string>)
    ensures LastStatus(rows, w).Some? <==> w in WorkersOf(rows)
  {
    if rows != [] {
      var front := rows[..|rows| - 1];
      LastStatusDefined(front, w);
      assert WorkersOf(rows) == WorkersOf(front) + {rows[|rows| - 1].workerId} by {
        forall i | 0 <= i < |front| ensures front[i] == rows[i] { }
      }
    }
  }

  /** A row with no later row for the same worker gives that worker's last status. */
  lemma {:induction false} LastRowWins(rows: seq<AttendanceRow>, i: int)
    requires 0 <= i < |rows|
    requires forall j :: i < j < |rows| ==> rows[j].workerId != rows[i].workerId
    ensures LastStatus(rows, rows[i].workerId) == Some(rows[i].status)
  {
    if i < |rows| - 1 {
      var front := rows[..|rows| - 1];
      assert front[i] == rows[i];
      LastRowWins(front, i);
    }
  }

  /**
   * The fold of `get_stats`: a map holding, for every worker with a row, the
   * status of that worker's last row, and nothing for anyone else.
   */
  method LatestStatusMap(rows: seq<AttendanceRow>) returns (m: StatusMap)
    ensures forall w :: w in m <==> LastStatus(rows, w).Some?
    ensures forall w :: w in m ==> LastStatus(rows, w) == Some(m[w])
  {
    m := map[];
    for i := 0 to |rows|
      invariant forall w :: w in m <==> LastStatus(rows[..i], w).Some?
      invariant forall w :: w in m ==> LastStatus(rows[..i], w) == Some(m[w])
    {
      assert rows[..i + 1][..i] == rows[..i];
      m := m[rows[i].workerId := rows[i].status];
    }
    assert rows[..|rows|] == rows;
  }

  /** `sum(1 for v in m.values() if v == s)`: the number of workers whose value is `s`. */
  function CountStatus(m: StatusMap, s: string): (n: nat)
    ensures n <= |m|
  {
    var matching := set w | w in m && m[w] == s;
    SubsetSize(matching, m.Keys);
    |matching|
  }

  lemma {:induction false} SubsetSize<T>(a: set<T>, b: set<T>)
    requires a <= b
    ensures |a| <= |b|
  {
    if a != {} {
      var x :| x in a;
      SubsetSize(a - {x}, b - {x});
    }
  }

  /** The workers whose last row has status `s`. */
  function WorkersWith(rows: seq<AttendanceRow>, s: string): set<Option<string>>
  {
    set w | w in WorkersOf(rows) && LastStatus(rows, w) == Some(s)
  }

  /** The number of workers whose last row for the day has status `s`. */
  function CountLatest(rows: seq<AttendanceRow>, s: string): nat
  {
    |WorkersWith(rows, s)|
  }

  /** Counting the fold's map counts the workers by their last row. */
  lemma {:induction false} CountOfLatestMap(rows: seq<AttendanceRow>, m: StatusMap, s: string)
    requires forall w :: w in m <==> LastStatus(rows, w).Some?
    requires forall w :: w in m ==> LastStatus(rows, w) == Some(m[w])
    ensures CountStatus(m, s) == CountLatest(rows, s)
  {
    var fromMap := set w | w in m && m[w] == s;
    var fromRows := WorkersWith(rows, s);
    forall w ensures w in fromMap <==> w in fromRows {
      LastStatusDefined(rows, w);
    }
    assert fromMap == fromRows;
  }

  /**
   * Each worker of the day counts once at most: as PRESENT, as ABSENT, or (for
   * any other last status) in neither count.
   */
  lemma {:induction false} CountsPartitionWorkers(rows: seq<AttendanceRow>)
    ensures CountLatest(rows, PRESENT) + CountLatest(rows, ABSENT)
            + |WorkersOf(rows) - WorkersWith(rows, PRESENT) - WorkersWith(rows, ABSENT)|
            == |WorkersOf(rows)|
  {
    var ws := WorkersOf(rows);
    var present := WorkersWith(rows, PRESENT);
    var absent := WorkersWith(rows, ABSENT);
    var other := ws - present - absent;
    assert present * absent == {} by {
      forall w | w in present ensures w !in absent { }
    }
    DisjointUnionSize(present, absent);
    DisjointUnionSize(present + absent, other);
    assert present + absent + other == ws;
  }

  lemma {:induction false} DisjointUnionSize<T>(a: set<T>, b: set<T>)
    requires a * b == {}
    ensures |a + b| == |a| + |b|
  {
    if a != {} {
      var x :| x in a;
      DisjointUnionSize(a - {x}, b);
      assert a + b == (a - {x}) + b + {x};
    }
  }

  /** Hence PRESENT plus ABSENT never exceeds the number of distinct workers of the day. */
  lemma {:induction false} CountsBounded(rows: seq<AttendanceRow>)
    ensures CountLatest(rows, PRESENT) + CountLatest(rows, ABSENT) <= |WorkersOf(rows)|
  {
    CountsPartitionWorkers(rows);
  }

  /** A day without rows counts nobody. */
  lemma {:induction false} EmptyDayCountsNobody(s: string)
    ensures CountLatest([], s) == 0
  {
    assert WorkersOf([]) == {};
  }

  /** PRESENT then ABSENT for the same worker: the worker counts as ABSENT only. */
  lemma {:induction false} LaterAbsentWins(present: AttendanceRow, absent: AttendanceRow)
    requires present.workerId == absent.workerId
    requires present.status == PRESENT && absent.status == ABSENT
    ensures CountLatest([present, absent], PRESENT) == 0
    ensures CountLatest([present, absent], ABSENT) == 1
  {
    var rows := [present, absent];
    var w := present.workerId;
    forall v | v in WorkersOf(rows) ensures v == w {
      var i :| 0 <= i < |rows| && rows[i].workerId == v;
    }
    assert rows[0].workerId in WorkersOf(rows);
    assert WorkersOf(rows) == {w};
    assert LastStatus(rows, w) == Some(ABSENT);
    assert WorkersWith(rows, PRESENT) == {};
    assert WorkersWith(rows, ABSENT) == {w};
  }
}

=== FILE: classifier.dfy ===
/**
 * Classification of the vision model's reply in the `/verify` handler
 * (app.py, `verify`): a fixed-order series of substring tests.
 * The reply is the model's text, already trimmed and upper-cased, or the
 * sentinel `ERROR_GEMINI` when the call failed.
 */
module Classifier {
  import opened Text

  const NO_WORKER := "NO_WORKER"
  const PPE_OK := "PPE_OK"
  const PPE_MISSING := "PPE_MISSING:"
  const ERROR_GEMINI := "ERROR_GEMINI"

  /** RETRY writes nothing; PRESENT and ABSENT each lead to one attendance row. */
  datatype Outcome = Retry | Present | Absent(missing: string)

  /**
   * `NO_WORKER` is tested first, then `PPE_OK`; every other reply is ABSENT
   * with the reply, `PPE_MISSING:` removed and stripped, as its missing items.
   */
  function Classify(reply: string): (o: Outcome)
    ensures o.Retry? <==> Contains(reply, NO_WORKER)
    ensures o.Present? <==> !Contains(reply, NO_WORKER) && Contains(reply, PPE_OK)
    ensures o.Absent? ==> Trimmed(o.missing)
    ensures o.Absent? ==> |o.missing| <= |reply|
    ensures o.Absent? && Contains(reply, PPE_MISSING) ==> |o.missing| <= |reply| - |PPE_MISSING|
  {
    if Contains(reply, NO_WORKER) then Retry
    else if Contains(reply, PPE_OK) then Present
    else Absent(Strip(RemoveAll(reply, PPE_MISSING)))
  }

  /**
   * Every reply without `NO_WORKER` and `PPE_OK` is ABSENT; its missing items
   * are the reply with each `PPE_MISSING:` deleted, then stripped.
   */
  lemma {:induction false} OtherReplyIsAbsent(reply: string)
    requires !Contains(reply, NO_WORKER) && !Contains(reply, PPE_OK)
    ensures Classify(reply) == Absent(Strip(RemoveAll(reply, PPE_MISSING)))
  {
  }

  /**
   * A reply with none of the three markers (the `ERROR_GEMINI` sentinel is one)
   * is ABSENT and keeps its whole text, stripped, as the missing items.
   */
  lemma {:induction false} UnmarkedReplyIsAbsent(reply: string)
    requires !Contains(reply, NO_WORKER) && !Contains(reply, PPE_OK) && !Contains(reply, PPE_MISSING)
    ensures Classify(reply) == Absent(Strip(reply))
  {
    OtherReplyIsAbsent(reply);
  }

  /** ... and a reply already trimmed, as the model client returns it, is kept verbatim. */
  lemma {:induction false} TrimmedUnmarkedReplyIsAbsent(reply: string)
    requires !Contains(reply, NO_WORKER) && !Contains(reply, PPE_OK) && !Contains(reply, PPE_MISSING)
    requires Trimmed(reply)
    ensures Classify(reply) == Absent(reply)
  {
    UnmarkedReplyIsAbsent(reply);
    StripUnchanged(reply);
  }

  /**
   * `PPE_MISSING:<items>` is ABSENT with the stripped items, whenever the
   * items hold none of the three markers.
   */
  lemma {:induction false} MissingListIsAbsent(items: string)
    requires !Contains(items, NO_WORKER) && !Contains(items, PPE_OK) && !Contains(items, PPE_MISSING)
    ensures Classify(PPE_MISSING + items) == Absent(Strip(items))
  {
    ListedItemsUnmarked(items);
    OtherReplyIsAbsent(PPE_MISSING + items);
    RemoveAllLeading(PPE_MISSING, items);
  }

  /**
   * Neither `NO_WORKER` nor `PPE_OK` occurs in `PPE_MISSING:` and neither
   * holds a colon, so neither can start inside the prefix of a listing.
   */
  lemma {:induction false} ListedItemsUnmarked(items: string)
    requires !Contains(items, NO_WORKER) && !Contains(items, PPE_OK)
    ensures !Contains(PPE_MISSING + items, NO_WORKER) && !Contains(PPE_MISSING + items, PPE_OK)
  {
    MarkerLetters();
    AbsentCharacter(PPE_MISSING, NO_WORKER, 'W');
    AbsentCharacter(PPE_MISSING, PPE_OK, 'K');
    NotAcrossCharacter(PPE_MISSING, items, NO_WORKER, ':');
    NotAcrossCharacter(PPE_MISSING, items, PPE_OK, ':');
  }

  /** The letters that tell the markers apart. */
  lemma {:induction false} MarkerLetters()
    ensures 'W' in NO_WORKER && 'W' !in PPE_MISSING
    ensures 'K' in PPE_OK && 'K' !in PPE_MISSING
    ensures ':' !in NO_WORKER && ':' !in PPE_OK && PPE_MISSING[|PPE_MISSING| - 1] == ':'
    ensures NO_WORKER[0] == 'N' && PPE_OK[0] == 'P' && PPE_MISSING[0] == 'P'
  {
  }

  /** `NO_WORKER` wins over `PPE_OK` wherever the two appear in the reply. */
  lemma {:induction false} NoWorkerWins(a: string, b: string, c: string)
    ensures Classify(a + NO_WORKER + b + PPE_OK + c) == Retry
    ensures Classify(a + PPE_OK + b + NO_WORKER + c) == Retry
  {
    assert a + NO_WORKER + b + PPE_OK + c == a + NO_WORKER + (b + PPE_OK + c);
    ContainsInContext(a, NO_WORKER, b + PPE_OK + c, NO_WORKER);
    assert a + PPE_OK + b + NO_WORKER + c == (a + PPE_OK + b) + NO_WORKER + c;
    ContainsInContext(a + PPE_OK + b, NO_WORKER, c, NO_WORKER);
  }

  /** The reply for a compliant worker. */
  lemma {:induction false} PpeOkExample()
    ensures Classify("PPE_OK") == Present
  {
  }

  /** The reply when no worker is in the frame. */
  lemma {:induction false} NoWorkerExample()
    ensures Classify("NO_WORKER") == Retry
  {
  }

  /**
   * The usual form of a listing, `PPE_MISSING: [VEST, BOOTS]`: the blank after
   * the colon goes and the list is kept as written.
   */
  lemma {:induction false} MissingListAfterBlank(blank: char, list: string)
    requires IsSpace(blank)
    requires !Contains(list, NO_WORKER) && !Contains(list, PPE_OK) && !Contains(list, PPE_MISSING)
    requires Trimmed(list)
    ensures Classify(PPE_MISSING + ([blank] + list)) == Absent(list)
  {
    MarkerLetters();
    assert blank != 'N' && blank != 'P';
    NotAfterCharacter(blank, list, NO_WORKER);
    NotAfterCharacter(blank, list, PPE_OK);
    NotAfterCharacter(blank, list, PPE_MISSING);
    MissingListIsAbsent([blank] + list);
    StripLeadingBlank(blank, list);
  }

  /** One leading blank before a trimmed text is all that `strip` removes. */
  lemma {:induction false} StripLeadingBlank(c: char, t: string)
    requires IsSpace(c)
    requires Trimmed(t)
    ensures Strip([c] + t) == t
  {
    assert ([c] + t)[1..] == t;
    assert StripStart([c] + t) == StripStart(t);
    StripUnchanged(t);
  }

  /** A trimmed reply without the letters P and W carries none of the three markers. */
  lemma {:induction false} NoMarkerLetters(reply: string)
    requires 'P' !in reply && 'W' !in reply
    requires Trimmed(reply)
    ensures Classify(reply) == Absent(reply)
  {
    AbsentCharacter(reply, NO_WORKER, 'W');
    AbsentCharacter(reply, PPE_OK, 'P');
    AbsentCharacter(reply, PPE_MISSING, 'P');
    TrimmedUnmarkedReplyIsAbsent(reply);
  }

  /** A failed model call is recorded as ABSENT, with the sentinel as missing items. */
  lemma {:induction false} ErrorSentinelExample()
    ensures Classify(ERROR_GEMINI) == Absent(ERROR_GEMINI)
  {
    NoMarkerLetters(ERROR_GEMINI);
  }
}

=== FILE: dataurl.dfy ===
/**
 * The image field of `/verify` and `/manual-upload` is a data URL,
 * `<header>,<base64 payload>`; the handlers take `image.split(",")[1]`.
 */
module DataUrl {
  import opened Wrappers
  import opened Text

  /**
   * `image.split(",")[1]`: the piece between the first and the second comma
   * (or the end). `None` stands for the IndexError raised when there is no comma.
   */
  function Payload(image: string): (p: Option<string>)
    ensures p.None? <==> ',' !in image
    ensures p.Some? ==> ',' !in p.value
  {
    var parts := Split(image, ',');
    if |parts| < 2 then None else Some(parts[1])
  }

  /**
   * Every string with a comma decomposes as `a + "," + p + b` with no comma
   * in `a` or `p` and `b` empty or starting with a comma; the payload is `p`.
   * With the `None` case of `Payload` this pins the function down.
   */
  lemma {:induction false} PayloadBetweenCommas(a: string, p: string, b: string)
    requires ',' !in a && ',' !in p
    requires b == [] || b[0] == ','
    ensures Payload(a + [','] + p + b) == Some(p)
  {
    SplitSecondPiece(a, p, b, ',');
  }

  /** The payload of a well-formed data URL is its whole base64 body. */
  lemma {:induction false} PayloadOfDataUrl(header: string, body: string)
    requires ',' !in header && ',' !in body
    ensures Payload(header + "," + body) == Some(body)
  {
    PayloadBetweenCommas(header, body, []);
    assert header + [','] + body + [] == header + "," + body;
  }

  /** A second comma cuts the payload short: it is not "everything after the first comma". */
  lemma {:induction false} PayloadStopsAtSecondComma()
    ensures Payload("data:x,AB,CD") == Some("AB")
  {
    PayloadBetweenCommas("data:x", "AB", ",CD");
    assert "data:x" + [','] + "AB" + ",CD" == "data:x,AB,CD";
  }
}

=== FILE: records.dfy ===
/**
 * The rows the three write paths insert into the `attendance` table:
 * automatic verification (`/verify`), manual upload (`/manual-upload`)
 * and admin override (`/api/manual-mark`).
 */
module Records {
  import opened Wrappers
  import opened Classifier
  import opened Text

  const PRESENT := "PRESENT"
  const ABSENT := "ABSENT"
  const PASSED := "PASSED"
  const FAILED := "FAILED"
  const MANUAL_VERIFIED := "MANUAL_VERIFIED"
  const ADMIN_OVERRIDE := "ADMIN_OVERRIDE"
  const MANUAL_NOTE := "Manual Override Confirmed"

  /**
   * One attendance row as inserted. `workerId` is whatever the request carried
   * (the handlers do not check it, so it may be null); `imageUrl` is the
   * `ppe_image_url` column. `created_at` is set by the database and is
   * modelled by the row's position in the table.
   */
  datatype AttendanceRow = AttendanceRow(
    workerId: Option<string>,
    status: string,
    ppeStatus: string,
    missingItems: string,
    imageUrl: Option<string>,
    date: string)

  /** The note an admin override leaves in `ppe_missing_items`. */
  function AdminNote(status: string): string
  {
    "Marked " + status + " by Admin"
  }

  /**
   * What every write path guarantees of the rows it inserts: no image URL is
   * kept, the PPE status is one of the four the handlers write, and it fixes
   * the attendance status (except for an admin override) and the shape of the
   * note: empty for PASSED, stripped for FAILED, the fixed text for
   * MANUAL_VERIFIED, and `Marked <status> by Admin` for ADMIN_OVERRIDE.
   */
  predicate Consistent(r: AttendanceRow)
  {
    && r.imageUrl == None
    && (r.ppeStatus == PASSED ==> r.status == PRESENT && r.missingItems == "")
    && (r.ppeStatus == FAILED ==> r.status == ABSENT && Trimmed(r.missingItems))
    && (r.ppeStatus == MANUAL_VERIFIED ==> r.status == PRESENT && r.missingItems == MANUAL_NOTE)
    && (r.ppeStatus == ADMIN_OVERRIDE ==> r.missingItems == AdminNote(r.status))
    && r.ppeStatus in {PASSED, FAILED, MANUAL_VERIFIED, ADMIN_OVERRIDE}
  }

  /**
   * The row `/verify` inserts for a PRESENT or ABSENT outcome, dated today.
   * PASSED goes with PRESENT and an empty note; FAILED with ABSENT and the
   * classifier's missing items, which `Classify` always leaves stripped.
   */
  function AutoRow(workerId: Option<string>, outcome: Outcome, today: string): (r: AttendanceRow)
    requires !outcome.Retry?
    requires outcome.Absent? ==> Trimmed(outcome.missing)
    ensures Consistent(r)
    ensures r.workerId == workerId && r.date == today
    ensures r.status == PRESENT <==> outcome.Present?
    ensures r.status == ABSENT <==> outcome.Absent?
    ensures r.ppeStatus == PASSED <==> outcome.Present?
    ensures r.ppeStatus == FAILED <==> outcome.Absent?
    ensures outcome.Absent? ==> r.missingItems == outcome.missing
  {
    var status := if outcome.Present? then PRESENT else ABSENT;
    AttendanceRow(
      workerId,
      status,
      if status == PRESENT then PASSED else FAILED,
      if status == ABSENT then outcome.missing else "",
      None,
      today)
  }

  /** The row `/manual-upload` inserts: operator-confirmed presence, whatever the image shows. */
  function ManualRow(workerId: Option<string>, today: string): (r: AttendanceRow)
    ensures Consistent(r)
    ensures r.workerId == workerId && r.date == today
    ensures r.status == PRESENT && r.ppeStatus == MANUAL_VERIFIED
  {
    AttendanceRow(workerId, PRESENT, MANUAL_VERIFIED, MANUAL_NOTE, None, today)
  }

  /**
   * The row `/api/manual-mark` inserts. Status and date default to PRESENT and
   * today only when the request leaves them out; any other value is kept.
   */
  function AdminRow(workerId: Option<string>, status: Option<string>, date: Option<string>, today: string): (r: AttendanceRow)
    ensures Consistent(r)
    ensures r.workerId == workerId && r.ppeStatus == ADMIN_OVERRIDE
    ensures status.None? ==> r.status == PRESENT
    ensures status.Some? ==> r.status == status.value
    ensures date.None? ==> r.date == today
    ensures date.Some? ==> r.date == date.value
  {
    var s := status.GetOr(PRESENT);
    AttendanceRow(workerId, s, ADMIN_OVERRIDE, AdminNote(s), None, date.GetOr(today))
  }
}

=== FILE: registry.dfy ===
/**
 * Worker id allocation in `/api/workers` (app.py, `add_worker`): every
 * existing id that parses as an integer is collected, and the new id is
 * the largest plus one, or 1001 when none parses.
 */
module Registry {
  import opened Wrappers

  const FIRST_ID: nat := 1001

  predicate IsDigit(c: char)
  {
    '0' <= c <= '9'
  }

  predicate AllDigits(s: string)
  {
    forall i :: 0 <= i < |s| ==> IsDigit(s[i])
  }

  /** The strings `int(s)` accepts in this model: a non-empty run of ASCII digits. */
  predicate IsNumeric(s: string)
  {
    |s| > 0 && AllDigits(s)
  }

  function DigitValue(c: char): nat
    requires IsDigit(c)
  {
    c as int - '0' as int
  }

  function Digit(d: nat): char
    requires d < 10
  {
    ('0' as int + d) as char
  }

  /** The value of a digit string, most significant digit first. */
  function DecimalValue(s: string): nat
    requires AllDigits(s)
  {
    if s == [] then 0 else DecimalValue(s[..|s| - 1]) * 10 + DigitValue(s[|s| - 1])
  }

  /**
   * Python's `str(n)` for a natural number: digits without a leading zero,
   * which read back as `n`.
   */
  function DecimalString(n: nat): (s: string)
    ensures IsNumeric(s)
    ensures DecimalValue(s) == n
    ensures s[0] == '0' ==> s == "0"
  {
    if n < 10 then [Digit(n)]
    else
      var s := DecimalString(n / 10) + [Digit(n % 10)];
      assert s[..|s| - 1] == DecimalString(n / 10);
      s
  }

  /** `int(s)` inside `try`/`except`: `None` for an id that does not parse. */
  function ParseId(s: string): (r: Option<nat>)
    ensures r.Some? <==> IsNumeric(s)
    ensures r.Some? ==> r.value == DecimalValue(s)
  {
    if IsNumeric(s) then Some(DecimalValue(s)) else None
  }

  /** `int(str(n)) == n`: every id the allocator prints parses back to its number. */
  lemma {:induction false} ParsePrinted(n: nat)
    ensures ParseId(DecimalString(n)) == Some(n)
  {
    var s := DecimalString(n);
    assert IsNumeric(s) && DecimalValue(s) == n;
  }

  /** Python's `max(xs)`. */
  function Max(xs: seq<nat>): (m: nat)
    requires xs != []
    ensures m in xs
    ensures forall i :: 0 <= i < |xs| ==> xs[i] <= m
  {
    if |xs| == 1 then xs[0]
    else
      var rest := Max(xs[1..]);
      assert forall i :: 1 <= i < |xs| ==> xs[i] == xs[1..][i - 1];
      if xs[0] < rest then rest else xs[0]
  }

  /**
   * `next` is the id `add_worker` allocates for the existing ids `ids`: one
   * more than the largest numeric id, or 1001 when no id is numeric.
   */
  ghost predicate IsNextId(ids: seq<string>, next: nat)
  {
    if exists i :: 0 <= i < |ids| && IsNumeric(ids[i]) then
      && (forall i :: 0 <= i < |ids| && IsNumeric(ids[i]) ==> DecimalValue(ids[i]) < next)
      && (exists i :: 0 <= i < |ids| && IsNumeric(ids[i]) && DecimalValue(ids[i]) + 1 == next)
    else next == FIRST_ID
  }

  /**
   * The allocation loop: ids that do not parse are skipped, the parsed ones
   * collected, and the maximum taken.
   */
  method NextWorkerId(ids: seq<string>) returns (next: nat)
    ensures IsNextId(ids, next)
  {
    next := FIRST_ID;
    if |ids| > 0 {
      var parsed: seq<nat> := [];
      for i := 0 to |ids|
        invariant forall k :: 0 <= k < i && IsNumeric(ids[k]) ==> DecimalValue(ids[k]) in parsed
        invariant forall v :: v in parsed ==> exists k :: 0 <= k < i && IsNumeric(ids[k]) && DecimalValue(ids[k]) == v
      {
        var p := ParseId(ids[i]);
        if p.Some? {
          parsed := parsed + [p.value];
        }
      }
      if parsed != [] {
        next := Max(parsed) + 1;
      }
    }
  }

  /** The allocated id is never one already taken, numeric or not. */
  lemma {:induction false} NextIdIsFresh(ids: seq<string>, next: nat)
    requires IsNextId(ids, next)
    ensures DecimalString(next) !in ids
  {
    forall i | 0 <= i < |ids| && IsNumeric(ids[i]) ensures DecimalValue(ids[i]) != next {
    }
  }

  /** The allocation rule determines one id. */
  lemma {:induction false} NextIdIsUnique(ids: seq<string>, a: nat, b: nat)
    requires IsNextId(ids, a) && IsNextId(ids, b)
    ensures a == b
  {
    if exists i :: 0 <= i < |ids| && IsNumeric(ids[i]) {
      var i :| 0 <= i < |ids| && IsNumeric(ids[i]) && DecimalValue(ids[i]) + 1 == a;
      var j :| 0 <= j < |ids| && IsNumeric(ids[j]) && DecimalValue(ids[j]) + 1 == b;
      assert DecimalValue(ids[i]) < b && DecimalValue(ids[j]) < a;
    }
  }

  /** The ids of `k` registrations into an empty registry, in order. */
  function Sequential(k: nat): (ids: seq<string>)
    ensures |ids| == k
  {
    if k == 0 then [] else Sequential(k - 1) + [DecimalString(FIRST_ID + k - 1)]
  }

  lemma {:induction false} SequentialAt(k: nat, j: nat)
    requires j < k
    ensures Sequential(k)[j] == DecimalString(FIRST_ID + j)
  {
    if j < k - 1 {
      SequentialAt(k - 1, j);
    }
  }

  /** Registering into an empty registry hands out 1001, 1002, ... in turn. */
  lemma {:induction false} SequentialNextId(k: nat)
    ensures IsNextId(Sequential(k), FIRST_ID + k)
  {
    var ids := Sequential(k);
    if k > 0 {
      forall i | 0 <= i < k ensures IsNumeric(ids[i]) && DecimalValue(ids[i]) == FIRST_ID + i {
        SequentialAt(k, i);
      }
      assert IsNumeric(ids[k - 1]) && DecimalValue(ids[k - 1]) + 1 == FIRST_ID + k;
    }
  }

  /** Non-numeric ids are skipped: `1001`, `abc`, `1005` give `1006`. */
  lemma {:induction false} MixedIdsExample(ids: seq<string>)
    requires ids == ["1001", "abc", "1005"]
    ensures IsNextId(ids, 1006)
  {
    assert ids[0] == DecimalString(1001);
    assert ids[2] == DecimalString(1005);
    assert !IsDigit(ids[1][0]);
  }

  /** The rule is not clamped at 1001: an existing `5` gives `6`. */
  lemma {:induction false} SmallIdExample(ids: seq<string>)
    requires ids == ["5"]
    ensures IsNextId(ids, 6)
  {
    assert ids[0] == DecimalString(5);
  }
}

=== FILE: site.dfy ===
/**
 * The attendance site's state and the handlers that change or read it:
 * `/verify`, `/manual-upload`, `/api/manual-mark`, `/api/stats`,
 * `POST /api/workers` and `DELETE /api/workers/<id>`. The `workers` and
 * `attendance` tables are sequences in insertion order; the vision model's
 * reply, base64 validity and today's date are parameters.
 */
module Site {
  import opened Wrappers
  import opened DataUrl
  import opened Classifier
  import opened Records
  import opened Aggregation
  import opened Registry
  import opened Tables

  /** A row of the `workers` table. */
  datatype Worker = Worker(workerId: string, name: string)

  /** The JSON `status` of `/verify` and what comes with it. */
  datatype VerifyResponse =
    | VerifyError
    | RetryCapture
    | Recorded(status: string, workerName: string, missing: string)

  /** The answer of `POST /api/workers`. */
  datatype Registration = NameRequired | Registered(workerId: string)

  /** The answer of `/api/stats`. */
  datatype DayStats = DayStats(present: nat, absent: nat, totalWorkers: nat, date: string)

  function WorkerKey(w: Worker): string { w.workerId }
  function RowWorker(r: AttendanceRow): Option<string> { r.workerId }
  function RowDate(r: AttendanceRow): string { r.date }

  /** The worker ids in table order. */
  function WorkerIds(ws: seq<Worker>): (ids: seq<string>)
    ensures |ids| == |ws|
    ensures forall i :: 0 <= i < |ws| ==> ids[i] == ws[i].workerId
  {
    if ws == [] then [] else [ws[0].workerId] + WorkerIds(ws[1..])
  }

  /**
   * The name `/verify` reports: that of the first worker with the id, or
   * "Worker" when there is none (a null id matches no worker).
   */
  function NameOf(ws: seq<Worker>, id: Option<string>): (name: string)
    ensures (forall i :: 0 <= i < |ws| ==> Some(ws[i].workerId) != id) ==> name == "Worker"
  {
    if ws == [] then "Worker"
    else if Some(ws[0].workerId) == id then ws[0].name
    else NameOf(ws[1..], id)
  }

  /** With distinct ids, the name reported for a registered id is that worker's name. */
  lemma {:induction false} NameOfRegistered(ws: seq<Worker>, i: int)
    requires Distinct(ws, WorkerKey)
    requires 0 <= i < |ws|
    ensures NameOf(ws, Some(ws[i].workerId)) == ws[i].name
  {
    if i > 0 {
      KeyOfMember(ws[1..], WorkerKey, ws[i]);
      NameOfRegistered(ws[1..], i - 1);
    }
  }

  /** `image.split(",")[1]` succeeds and the payload decodes as base64. */
  predicate ImageReadable(image: Option<string>, payloadDecodes: bool)
  {
    image.Some? && Payload(image.value).Some? && payloadDecodes
  }

  class Store {
    var workers: seq<Worker>
    var attendance: seq<AttendanceRow>

    /**
     * Worker ids are unique, and every attendance row has the shape the write
     * paths give their rows (`Consistent`).
     */
    ghost predicate Valid()
      reads this
    {
      && Distinct(workers, WorkerKey)
      && forall r :: r in attendance ==> Consistent(r)
    }

    constructor ()
      ensures Valid() && workers == [] && attendance == []
    {
      workers := [];
      attendance := [];
    }

    /**
     * `POST /verify`. A missing image, one without a comma or one that does
     * not decode gives ERROR and writes nothing; a RETRY reply writes nothing;
     * otherwise exactly one row for today is appended.
     */
    method Verify(workerId: Option<string>, image: Option<string>, payloadDecodes: bool, reply: string, today: string)
      returns (response: VerifyResponse)
      requires Valid()
      modifies this
      ensures Valid() && workers == old(workers)
      ensures !ImageReadable(image, payloadDecodes) ==> response == VerifyError && attendance == old(attendance)
      ensures ImageReadable(image, payloadDecodes) && Classify(reply).Retry? ==>
                response == RetryCapture && attendance == old(attendance)
      ensures ImageReadable(image, payloadDecodes) && !Classify(reply).Retry? ==>
                var row := AutoRow(workerId, Classify(reply), today);
                && attendance == old(attendance) + [row]
                && response == Recorded(row.status, NameOf(workers, workerId), row.missingItems)
    ensures response.Recorded? ==>
              forall i :: 0 <= i < |workers| && workerId == Some(workers[i].workerId) ==>
                response.workerName == workers[i].name
    {
      if image.None? {
        return VerifyError;
      }
      var payload := Payload(image.value);
      if payload.None? || !payloadDecodes {
        return VerifyError;
      }
      var outcome := Classify(reply);
      if outcome.Retry? {
        return RetryCapture;
      }
      var row := AutoRow(workerId, outcome, today);
      attendance := attendance + [row];
      response := Recorded(row.status, NameOf(workers, workerId), row.missingItems);
      forall i | 0 <= i < |workers| && workerId == Some(workers[i].workerId)
        ensures response.workerName == workers[i].name
      {
        NameOfRegistered(workers, i);
      }
    }

    /**
     * `POST /manual-upload`: the same image checks as `/verify`, then one
     * PRESENT / MANUAL_VERIFIED row for today, with no classification.
     */
    method ManualUpload(workerId: Option<string>, image: Option<string>, payloadDecodes: bool, today: string)
      returns (success: bool)
      requires Valid()
      modifies this
      ensures Valid() && workers == old(workers)
      ensures success == ImageReadable(image, payloadDecodes)
      ensures attendance == old(attendance) + (if success then [ManualRow(workerId, today)] else [])
    {
      if image.None? || Payload(image.value).None? || !payloadDecodes {
        return false;
      }
      attendance := attendance + [ManualRow(workerId, today)];
      success := true;
    }

    /** `POST /api/manual-mark`: one ADMIN_OVERRIDE row, with no check on any field. */
    method ManualMark(workerId: Option<string>, status: Option<string>, date: Option<string>, today: string)
      requires Valid()
      modifies this
      ensures Valid() && workers == old(workers)
      ensures attendance == old(attendance) + [AdminRow(workerId, status, date, today)]
    {
      attendance := attendance + [AdminRow(workerId, status, date, today)];
    }

    /**
     * `GET /api/stats`: for the requested day (today by default), the number of
     * workers whose latest row is PRESENT and is ABSENT, and the number of
     * registered workers.
     */
    method Stats(date: Option<string>, today: string) returns (stats: DayStats)
      ensures stats.date == date.GetOr(today)
      ensures stats.present == CountLatest(Matching(attendance, RowDate, stats.date), PRESENT)
      ensures stats.absent == CountLatest(Matching(attendance, RowDate, stats.date), ABSENT)
      ensures stats.present + stats.absent <= |WorkersOf(Matching(attendance, RowDate, stats.date))|
      ensures stats.totalWorkers == |workers|
    {
      var day := date.GetOr(today);
      var logs := Matching(attendance, RowDate, day);
      var latest := LatestStatusMap(logs);
      var present := CountStatus(latest, PRESENT);
      var absent := CountStatus(latest, ABSENT);
      CountOfLatestMap(logs, latest, PRESENT);
      CountOfLatestMap(logs, latest, ABSENT);
      CountsBounded(logs);
      stats := DayStats(present, absent, |workers|, day);
    }

    /**
     * `POST /api/workers`: an absent or empty name is refused and nothing is
     * written; otherwise the next id is allocated and one worker appended.
     */
    method AddWorker(name: Option<string>) returns (result: Registration)
      requires Valid()
      modifies this
      ensures Valid() && attendance == old(attendance)
      ensures name.None? || name == Some("") ==> result == NameRequired && workers == old(workers)
      ensures name.Some? && name.value != "" ==>
                && result.Registered?
                && result.workerId !in WorkerIds(old(workers))
                && (exists next :: IsNextId(WorkerIds(old(workers)), next) && result.workerId == DecimalString(next))
                && workers == old(workers) + [Worker(result.workerId, name.value)]
    {
      if name.None? || name.value == "" {
        return NameRequired;
      }
      var ids := WorkerIds(workers);
      var next := NextWorkerId(ids);
      var id := DecimalString(next);
      NextIdIsFresh(ids, next);
      assert id !in KeysOf(workers, WorkerKey) by {
        forall i | 0 <= i < |workers| ensures WorkerKey(workers[i]) != id {
          assert ids[i] == WorkerKey(workers[i]);
        }
      }
      AppendKeepsDistinct(workers, WorkerKey, Worker(id, name.value));
      workers := workers + [Worker(id, name.value)];
      result := Registered(id);
    }

    /**
     * `DELETE /api/workers/<id>`: all attendance rows of the id go, then the
     * worker row. It succeeds whether or not the id has rows or exists.
     */
    method DeleteWorker(id: string)
      requires Valid()
      modifies this
      ensures Valid()
      ensures attendance == Without(old(attendance), RowWorker, Some(id))
      ensures workers == Without(old(workers), WorkerKey, id)
    {
      attendance := Without(attendance, RowWorker, Some(id));
      WithoutKeepsDistinct(workers, WorkerKey, id);
      workers := Without(workers, WorkerKey, id);
    }
  }

  /**
   * After a deletion, no attendance row and no worker row has the id, and
   * every other worker's rows are exactly as before.
   */
  lemma {:induction false} DeletionCascades(
    attendance: seq<AttendanceRow>, workers: seq<Worker>, id: string, other: Option<string>)
    requires other != Some(id)
    ensures Matching(Without(attendance, RowWorker, Some(id)), RowWorker, Some(id)) == []
    ensures id !in KeysOf(Without(workers, WorkerKey, id), WorkerKey)
    ensures Matching(Without(attendance, RowWorker, Some(id)), RowWorker, other)
            == Matching(attendance, RowWorker, other)
  {
    DeletedKeyGone(attendance, RowWorker, Some(id));
    DeletedKeyGone(workers, WorkerKey, id);
    OtherKeysUntouched(attendance, RowWorker, Some(id), other);
  }
}

=== FILE: tables.dfy ===
/**
 * The two database tables are modelled as sequences of rows in insertion
 * order. `.eq(column, k)` selects the rows whose column equals `k`, and
 * `.delete().eq(column, k)` keeps the others; `key` reads the column.
 */
module Tables {

  /** `.select().eq(column, k)`: the rows whose key is `k`, in table order. */
  function Matching<T(!new), K(==)>(s: seq<T>, key: T -> K, k: K): (r: seq<T>)
    ensures |r| <= |s|
    ensures forall x :: x in r <==> x in s && key(x) == k
  {
    if s == [] then []
    else (if key(s[0]) == k then [s[0]] else []) + Matching(s[1..], key, k)
  }

  /** What `.delete().eq(column, k)` leaves: the rows whose key is not `k`, in table order. */
  function Without<T(!new), K(==)>(s: seq<T>, key: T -> K, k: K): (r: seq<T>)
    ensures |r| <= |s|
    ensures forall x :: x in r <==> x in s && key(x) != k
  {
    if s == [] then []
    else (if key(s[0]) != k then [s[0]] else []) + Without(s[1..], key, k)
  }

  /**
   * Selection keeps table order and repetitions: selecting from two tables
   * one after the other is selecting from each and concatenating.
   */
  lemma {:induction false} MatchingAppend<T(!new), K>(s: seq<T>, t: seq<T>, key: T -> K, k: K)
    ensures Matching(s + t, key, k) == Matching(s, key, k) + Matching(t, key, k)
    decreases |s|
  {
    if s != [] {
      assert (s + t)[0] == s[0];
      assert (s + t)[1..] == s[1..] + t;
      MatchingAppend(s[1..], t, key, k);
    } else {
      assert s + t == t;
    }
  }

  /** Deletion keeps table order and repetitions in the same way. */
  lemma {:induction false} WithoutAppend<T(!new), K>(s: seq<T>, t: seq<T>, key: T -> K, k: K)
    ensures Without(s + t, key, k) == Without(s, key, k) + Without(t, key, k)
    decreases |s|
  {
    if s != [] {
      assert (s + t)[0] == s[0];
      assert (s + t)[1..] == s[1..] + t;
      WithoutAppend(s[1..], t, key, k);
    } else {
      assert s + t == t;
    }
  }

  /** The keys present in a table. */
  function KeysOf<T, K>(s: seq<T>, key: T -> K): set<K>
  {
    set i | 0 <= i < |s| :: key(s[i])
  }

  /** No two rows share a key. */
  predicate Distinct<T, K(==)>(s: seq<T>, key: T -> K)
  {
    s == [] || (key(s[0]) !in KeysOf(s[1..], key) && Distinct(s[1..], key))
  }

  /** Deleting the rows with key `k` leaves the rows of every other key exactly as they were. */
  lemma {:induction false} OtherKeysUntouched<T(!new), K>(s: seq<T>, key: T -> K, k: K, j: K)
    requires j != k
    ensures Matching(Without(s, key, k), key, j) == Matching(s, key, j)
  {
    if s != [] {
      OtherKeysUntouched(s[1..], key, k, j);
      var rest := Without(s[1..], key, k);
      if key(s[0]) != k {
        assert Without(s, key, k) == [s[0]] + rest;
        assert ([s[0]] + rest)[1..] == rest;
      } else {
        assert Without(s, key, k) == rest;
      }
    }
  }

  /** Deleting the rows with key `k` removes every one of them. */
  lemma {:induction false} DeletedKeyGone<T(!new), K>(s: seq<T>, key: T -> K, k: K)
    ensures Matching(Without(s, key, k), key, k) == []
    ensures k !in KeysOf(Without(s, key, k), key)
  {
    var r := Without(s, key, k);
    assert forall i :: 0 <= i < |r| ==> r[i] in r;
    NoneMatching(r, key, k);
  }

  lemma {:induction false} NoneMatching<T(!new), K>(s: seq<T>, key: T -> K, k: K)
    requires forall i :: 0 <= i < |s| ==> key(s[i]) != k
    ensures Matching(s, key, k) == []
  {
    if s != [] {
      NoneMatching(s[1..], key, k);
    }
  }

  /** The key of a row of the table is one of its keys. */
  lemma {:induction false} KeyOfMember<T, K>(s: seq<T>, key: T -> K, x: T)
    requires x in s
    ensures key(x) in KeysOf(s, key)
  {
    var i :| 0 <= i < |s| && s[i] == x;
  }

  /** Deleting a key no row has changes nothing. */
  lemma {:induction false} WithoutAbsentKey<T(!new), K>(s: seq<T>, key: T -> K, k: K)
    requires k !in KeysOf(s, key)
    ensures Without(s, key, k) == s
  {
    if s != [] {
      KeyOfMember(s, key, s[0]);
      assert k !in KeysOf(s[1..], key) by {
        forall i | 0 <= i < |s[1..]| ensures key(s[1..][i]) != k { KeyOfMember(s, key, s[1..][i]); }
      }
      WithoutAbsentKey(s[1..], key, k);
    }
  }

  /** Deleting rows keeps the keys distinct. */
  lemma {:induction false} WithoutKeepsDistinct<T(!new), K>(s: seq<T>, key: T -> K, k: K)
    requires Distinct(s, key)
    ensures Distinct(Without(s, key, k), key)
  {
    if s != [] {
      WithoutKeepsDistinct(s[1..], key, k);
      var rest := Without(s[1..], key, k);
      if key(s[0]) != k {
        assert Without(s, key, k) == [s[0]] + rest;
        assert ([s[0]] + rest)[1..] == rest;
        assert key(s[0]) !in KeysOf(rest, key) by {
          forall i | 0 <= i < |rest| ensures key(rest[i]) != key(s[0]) {
            assert rest[i] in rest;
            KeyOfMember(s[1..], key, rest[i]);
          }
        }
      } else {
        assert Without(s, key, k) == rest;
      }
    }
  }

  /** Appending a row with a fresh key keeps the keys distinct. */
  lemma {:induction false} AppendKeepsDistinct<T, K>(s: seq<T>, key: T -> K, x: T)
    requires Distinct(s, key)
    requires key(x) !in KeysOf(s, key)
    ensures Distinct(s + [x], key)
  {
    if s != [] {
      var t := s + [x];
      assert t[0] == s[0] && t[1..] == s[1..] + [x];
      assert key(x) !in KeysOf(s[1..], key) by {
        forall i | 0 <= i < |s[1..]| ensures key(s[1..][i]) != key(x) { KeyOfMember(s, key, s[1..][i]); }
      }
      AppendKeepsDistinct(s[1..], key, x);
      KeyOfMember(s, key, s[0]);
      assert key(s[0]) !in KeysOf(t[1..], key) by {
        forall i | 0 <= i < |t[1..]| ensures key(t[1..][i]) != key(s[0]) {
          if i < |s[1..]| {
            assert t[1..][i] == s[1..][i];
          }
        }
      }
    } else {
      assert [x][1..] == [];
    }
  }
}

=== FILE: text.dfy ===
/**
 * The few Python string operations the attendance handlers rely on:
 * substring test (`pat in s`), `s.replace(pat, "")`, `s.strip()` and
 * `s.split(sep)`, over `string` = `seq<char>`.
 */
module Text {

  /** `pat` occurs in `s` starting at index `i`. */
  predicate OccursAt(s: string, pat: string, i: int)
  {
    0 <= i && i + |pat| <= |s| && s[i..i + |pat|] == pat
  }

  /**
   * Python's `pat in s`, scanning from the left; it holds exactly when `pat`
   * occurs at some index of `s`.
   */
  predicate Contains(s: string, pat: string): (found: bool)
    ensures found <==> exists i :: OccursAt(s, pat, i)
    decreases |s|
  {
    if |s| < |pat| then false
    else if pat <= s then
      assert OccursAt(s, pat, 0);
      true
    else
      var rest := Contains(s[1..], pat);
      assert rest <==> exists i :: OccursAt(s, pat, i) by {
        if rest {
          var i :| OccursAt(s[1..], pat, i);
          assert s[i + 1..i + 1 + |pat|] == s[1..][i..i + |pat|];
          assert OccursAt(s, pat, i + 1);
        } else {
          forall i | OccursAt(s, pat, i) && i > 0 ensures OccursAt(s[1..], pat, i - 1) {
            assert s[1..][i - 1..i - 1 + |pat|] == s[i..i + |pat|];
          }
        }
      }
      rest
  }

  /** A pattern with a character that `s` lacks does not occur in `s`. */
  lemma {:induction false} AbsentCharacter(s: string, pat: string, c: char)
    requires c in pat && c !in s
    ensures !Contains(s, pat)
  {
    var k :| 0 <= k < |pat| && pat[k] == c;
    forall i | 0 <= i && i + |pat| <= |s| ensures !OccursAt(s, pat, i) {
      assert s[i..i + |pat|][k] == s[i + k] != c;
    }
  }

  /** An occurrence inside a part is an occurrence in the whole. */
  lemma {:induction false} ContainsInContext(a: string, s: string, b: string, pat: string)
    requires Contains(s, pat)
    ensures Contains(a + s + b, pat)
  {
    var i :| OccursAt(s, pat, i);
    assert (a + s + b)[|a| + i..|a| + i + |pat|] == s[i..i + |pat|];
    assert OccursAt(a + s + b, pat, |a| + i);
  }

  /**
   * Python's `s.replace(pat, "")`: every non-overlapping occurrence of `pat`,
   * found left to right, is deleted.
   */
  function RemoveAll(s: string, pat: string): (r: string)
    requires pat != []
    ensures |r| <= |s|
    ensures !Contains(s, pat) ==> r == s
    ensures Contains(s, pat) ==> |r| <= |s| - |pat|
    decreases |s|
  {
    if |s| < |pat| then s
    else if pat <= s then RemoveAll(s[|pat|..], pat)
    else [s[0]] + RemoveAll(s[1..], pat)
  }

  /** A leading occurrence is removed and the scan resumes after it. */
  lemma {:induction false} RemoveAllLeading(pat: string, s: string)
    requires pat != []
    ensures RemoveAll(pat + s, pat) == RemoveAll(s, pat)
  {
    assert pat <= pat + s;
    assert (pat + s)[|pat|..] == s;
  }

  /**
   * The scan deletes the first occurrence and resumes after it: text before
   * the first occurrence is kept as it is.
   */
  lemma {:induction false} RemoveAllFirst(x: string, pat: string, y: string)
    requires pat != []
    requires forall j :: 0 <= j < |x| ==> !OccursAt(x + pat + y, pat, j)
    ensures RemoveAll(x + pat + y, pat) == x + RemoveAll(y, pat)
    decreases |x|
  {
    if x == [] {
      assert x + pat + y == pat + y;
      RemoveAllLeading(pat, y);
    } else {
      var s := x + pat + y;
      var r := RemoveAll(y, pat);
      assert !OccursAt(s, pat, 0);
      RemoveAllStep(s, pat);
      NoOccurrenceShifted(x, pat, y);
      RemoveAllFirst(x[1..], pat, y);
      assert RemoveAll(s, pat) == [x[0]] + (x[1..] + r);
      HeadTail(x, r);
    }
  }

  lemma {:induction false} HeadTail(x: string, r: string)
    requires x != []
    ensures [x[0]] + (x[1..] + r) == x + r
  {
    assert [x[0]] + x[1..] == x;
  }

  /** Without an occurrence at the start, the first character is kept. */
  lemma {:induction false} RemoveAllStep(s: string, pat: string)
    requires pat != [] && |pat| <= |s| && !OccursAt(s, pat, 0)
    ensures RemoveAll(s, pat) == [s[0]] + RemoveAll(s[1..], pat)
  {
    assert s[0..|pat|] == s[..|pat|];
  }

  lemma {:induction false} NoOccurrenceShifted(x: string, pat: string, y: string)
    requires x != []
    requires forall j :: 0 <= j < |x| ==> !OccursAt(x + pat + y, pat, j)
    ensures (x + pat + y)[1..] == x[1..] + pat + y
    ensures forall j :: 0 <= j < |x| - 1 ==> !OccursAt(x[1..] + pat + y, pat, j)
  {
    var s := x + pat + y;
    var t := s[1..];
    assert t == x[1..] + pat + y;
    forall j | 0 <= j < |x| - 1 ensures !OccursAt(t, pat, j) {
      assert !OccursAt(s, pat, j + 1);
      if j + |pat| <= |t| {
        var here, there := t[j..j + |pat|], s[j + 1..j + 1 + |pat|];
        assert here == there by {
          forall k | 0 <= k < |pat| ensures here[k] == there[k] {
            assert t[j + k] == s[j + 1 + k];
          }
        }
      }
    }
  }

  /** A pattern that does not start with `c` occurs in `[c] + t` only if it occurs in `t`. */
  lemma {:induction false} NotAfterCharacter(c: char, t: string, pat: string)
    requires pat != [] && pat[0] != c && !Contains(t, pat)
    ensures !Contains([c] + t, pat)
  {
    assert ([c] + t)[1..] == t;
    assert !(pat <= [c] + t) by {
      if |pat| <= |[c] + t| {
        assert ([c] + t)[0] != pat[0];
      }
    }
  }

  /**
   * A pattern without the character `c` cannot straddle a `c` that ends `p`,
   * so it occurs in `p + t` only if it occurs in `p` or in `t`.
   */
  lemma {:induction false} NotAcrossCharacter(p: string, t: string, pat: string, c: char)
    requires p != [] && p[|p| - 1] == c && c !in pat
    requires !Contains(p, pat) && !Contains(t, pat)
    ensures !Contains(p + t, pat)
  {
    var s := p + t;
    forall i | 0 <= i && i + |pat| <= |s| ensures !OccursAt(s, pat, i) {
      if i + |pat| <= |p| {
        assert s[i..i + |pat|] == p[i..i + |pat|];
        assert !OccursAt(p, pat, i);
      } else if i >= |p| {
        assert s[i..i + |pat|] == t[i - |p|..i - |p| + |pat|];
        assert !OccursAt(t, pat, i - |p|);
      } else {
        assert s[i..i + |pat|][|p| - 1 - i] == c;
      }
    }
  }

  /** Python's `str.isspace` for one character (the characters `str.strip()` removes). */
  predicate IsSpace(c: char)
  {
    || '\t' <= c <= '\r'
    || '\U{1C}' <= c <= ' '
    || c == '\U{85}' || c == '\U{A0}' || c == '\U{1680}'
    || '\U{2000}' <= c <= '\U{200A}'
    || c == '\U{2028}' || c == '\U{2029}' || c == '\U{202F}' || c == '\U{205F}'
    || c == '\U{3000}'
  }

  /** The text neither starts nor ends with whitespace, as `str.strip()` leaves it. */
  predicate Trimmed(s: string)
  {
    s == [] || (!IsSpace(s[0]) && !IsSpace(s[|s| - 1]))
  }

  predicate AllSpace(s: string)
  {
    forall i :: 0 <= i < |s| ==> IsSpace(s[i])
  }

  /** `r` occurs in `s` at index `i` with nothing but whitespace before and after it. */
  predicate PaddedAt(s: string, r: string, i: int)
  {
    OccursAt(s, r, i) && AllSpace(s[..i]) && AllSpace(s[i + |r|..])
  }

  /** Python's `s.lstrip()`: the suffix left after dropping leading whitespace. */
  function StripStart(s: string): (r: string)
    ensures |r| <= |s| && r == s[|s| - |r|..]
    ensures AllSpace(s[..|s| - |r|])
    ensures r == [] || !IsSpace(r[0])
  {
    if s != [] && IsSpace(s[0]) then
      var r := StripStart(s[1..]);
      assert s[1..][..|s[1..]| - |r|] == s[1..|s| - |r|];
      r
    else s
  }

  /** Python's `s.rstrip()`: the prefix left after dropping trailing whitespace. */
  function StripEnd(s: string): (r: string)
    ensures |r| <= |s| && r == s[..|r|]
    ensures AllSpace(s[|r|..])
    ensures r == [] || !IsSpace(r[|r| - 1])
  {
    if s != [] && IsSpace(s[|s| - 1]) then
      var front := s[..|s| - 1];
      var r := StripEnd(front);
      assert s[..|r|] == front[..|r|];
      assert AllSpace(s[|r|..]) by {
        forall i | |r| <= i < |s| ensures IsSpace(s[i]) {
          if i < |s| - 1 {
            assert s[i] == front[|r|..][i - |r|];
          }
        }
      }
      r
    else s
  }

  /**
   * Python's `s.strip()`: the window of `s` left after dropping whitespace at
   * both ends; everything dropped is whitespace and the window neither starts
   * nor ends with whitespace.
   */
  function Strip(s: string): (r: string)
    ensures exists i :: PaddedAt(s, r, i)
    ensures Trimmed(r)
  {
    var t := StripStart(s);
    var r := StripEnd(t);
    StripWindow(s, t, r);
    r
  }

  /**
   * `StripEnd` applied after `StripStart` leaves a trimmed window of `s` with
   * only whitespace around it.
   */
  lemma {:induction false} StripWindow(s: string, t: string, r: string)
    requires |t| <= |s| && t == s[|s| - |t|..] && AllSpace(s[..|s| - |t|])
    requires t == [] || !IsSpace(t[0])
    requires |r| <= |t| && r == t[..|r|] && AllSpace(t[|r|..])
    requires r == [] || !IsSpace(r[|r| - 1])
    ensures exists i :: PaddedAt(s, r, i)
    ensures Trimmed(r)
  {
    var i := |s| - |t|;
    assert s[i..i + |r|] == t[..|r|];
    assert s[i + |r|..] == t[|r|..];
    assert PaddedAt(s, r, i);
    if r != [] {
      assert r[0] == t[0];
    }
  }

  /** Stripping a string that neither starts nor ends with whitespace changes nothing. */
  lemma {:induction false} StripUnchanged(s: string)
    requires Trimmed(s)
    ensures Strip(s) == s
  {
  }

  /** `str.strip()` is idempotent. */
  lemma {:induction false} StripIdempotent(s: string)
    ensures Strip(Strip(s)) == Strip(s)
  {
    StripUnchanged(Strip(s));
  }

  /** Python's `s.split(sep)` for a one-character separator. */
  function Split(s: string, sep: char): (parts: seq<string>)
    ensures |parts| >= 1
    ensures forall k :: 0 <= k < |parts| ==> sep !in parts[k]
    ensures |parts| == 1 <==> sep !in s
  {
    if s == [] then [[]]
    else
      var rest := Split(s[1..], sep);
      if s[0] == sep then [[]] + rest
      else [[s[0]] + rest[0]] + rest[1..]
  }

  /** Python's `sep.join(parts)`. */
  function Join(parts: seq<string>, sep: char): string
    requires |parts| >= 1
  {
    if |parts| == 1 then parts[0] else parts[0] + [sep] + Join(parts[1..], sep)
  }

  /** Joining the pieces of a split with the same separator gives back the input. */
  lemma {:induction false} JoinSplit(s: string, sep: char)
    ensures Join(Split(s, sep), sep) == s
  {
    if s != [] {
      var rest := Split(s[1..], sep);
      JoinSplit(s[1..], sep);
      if s[0] == sep {
        assert ([[]] + rest)[1..] == rest;
      } else {
        var parts := [[s[0]] + rest[0]] + rest[1..];
        if |rest| > 1 {
          assert parts[1..] == rest[1..];
          assert Join(rest, sep) == rest[0] + [sep] + Join(rest[1..], sep);
        }
      }
    }
  }

  /** A leading separator gives an empty first piece. */
  lemma {:induction false} SplitLeadingSeparator(rest: string, sep: char)
    ensures Split([sep] + rest, sep) == [[]] + Split(rest, sep)
  {
    assert ([sep] + rest)[1..] == rest;
  }

  /** The first piece of `p + b` is `p` when `b` is empty or starts with the separator. */
  lemma {:induction false} SplitFirstPiece(p: string, b: string, sep: char)
    requires sep !in p
    requires b == [] || b[0] == sep
    ensures Split(p + b, sep)[0] == p
  {
    SplitPrefix(p, b, sep);
    if b != [] {
      SplitLeadingSeparator(b[1..], sep);
      assert b == [sep] + b[1..];
    }
  }

  /** The second piece of `a + sep + p + b` is `p`, for separator-free `a` and `p`. */
  lemma {:induction false} SplitSecondPiece(a: string, p: string, b: string, sep: char)
    requires sep !in a && sep !in p
    requires b == [] || b[0] == sep
    ensures |Split(a + [sep] + p + b, sep)| >= 2
    ensures Split(a + [sep] + p + b, sep)[1] == p
  {
    var tail := [sep] + (p + b);
    var whole := a + [sep] + p + b;
    assert whole == a + tail;
    var pieces := Split(p + b, sep);
    SplitLeadingSeparator(p + b, sep);
    assert Split(tail, sep) == [[]] + pieces;
    SplitPrefix(a, tail, sep);
    assert Split(whole, sep) == [a + []] + pieces;
    SplitFirstPiece(p, b, sep);
  }

  /** Splitting a string that begins with a separator-free piece `a`. */
  lemma {:induction false} SplitPrefix(a: string, rest: string, sep: char)
    requires sep !in a
    ensures Split(a + rest, sep) == [a + Split(rest, sep)[0]] + Split(rest, sep)[1..]
  {
    if a != [] {
      SplitPrefix(a[1..], rest, sep);
      assert (a + rest)[1..] == a[1..] + rest;
      assert (a + rest)[0] == a[0];
      assert [a[0]] + (a[1..] + Split(rest, sep)[0]) == a + Split(rest, sep)[0];
    } else {
      var parts := Split(rest, sep);
      assert a + rest == rest;
      assert a + parts[0] == parts[0];
      assert parts == [parts[0]] + parts[1..];
    }
  }
}

=== FILE: wrappers.dfy ===
/** Optional values: a JSON field that may be absent, a nullable column. */
module Wrappers {

  datatype Option<+T> = None | Some(value: T) {

    /** The value, or `default` when absent (Python's `dict.get(key, default)`). */
    function GetOr(default: T): T
    {
      match this
      case Some(v) => v
      case None => default
    }
  }
}
